=== FILE: README.md ===
# Zenora WSL launcher: install orchestration and settings merges

A Dafny model of the decision logic of the Zenora distribution launcher for
the Windows Subsystem for Linux:

- `wmain`, the entry point: the optional-component gate, the install of an
  unregistered distribution, the dispatch over `run`/`-c`, `config
  --default-user` and `install [--root]`, and the process exit code;
- `InstallDistribution` and `SetDefaultUser`: registration, the removal of
  `/etc/resolv.conf`, the username prompt and default-user setup (hard steps
  whose failure returns at once), then fonts and the terminal profile (soft
  steps that, for the answers the model represents, cannot change the
  result);
- `InstallFontsFromWSL`: copying `fonts/*.ttf` into the system font folder
  and registering each copied font;
- `AddTerminalProfile`: adding the Zenora profile to Windows Terminal's
  `settings.json` unless a profile with its GUID is present;
- `RunPowerShellCommand`, `AddZenoraProfileToWindowsTerminal` and what the
  PowerShell script embedded there is written to do: a second merge that
  creates a skeleton file and recognises the profile by name. Nothing in
  `DistroLauncher.cpp` calls this function.

Every call to the outside world (the WSL API, the guest, the file system,
the registry) is an answer fixed in advance and passed in as data. Each
operation is a pure function returning its result together with the trace
of calls it made (`Calls.Call`), so "no later step runs" and "nothing is
written" are statements about that trace.

Modules: `Wrappers` (Option), `Win32` (DWORD, HRESULT, `FAILED`,
`HRESULT_FROM_WIN32`, the constants), `Settings` (an abstract JSON value and
settings document: `profiles.list` plus everything else), `Calls`, `Fonts`,
`TerminalProfile`, `Install`, `Launcher` (`wmain`) and `DistributionInfo`.

## Behaviour as coded

Behaviour of the code a reader may not expect:

- `install` on a distribution that is already registered exits with 1: the
  exit code keeps its initial value 1. An install failing with
  `HRESULT_FROM_WIN32(ERROR_ALREADY_EXISTS)` only prints a message and also
  exits with 1.
- The exit code of `/bin/rm /etc/resolv.conf` is ignored; only the launch
  HRESULT can stop the install.
- `AddTerminalProfile` returns silently when the settings file cannot be
  opened or parsed; it never creates a file. Only the embedded PowerShell
  script is written to create a skeleton for a missing file.
- `AddZenoraProfileToWindowsTerminal` is never called: the install runs
  `AddTerminalProfile` (`DistroLauncher.cpp`, line 163) and nothing else
  calls the PowerShell variant.
- `RunPowerShellCommand` hands its command to `WslLaunchInteractive`, which
  runs it inside the Linux guest, not on Windows. The guest's shell would
  reinterpret the script's inner quotes and its `$settingsPath` and `$env:`
  references.
  `DistributionInfo.RunProfileScript` therefore describes what the script
  text is written to do, not an effect the launcher is known to have.
- Both merges rewrite the settings file in place; nothing is atomic.
- Fonts are copied with overwrite allowed (`CopyFile(..., FALSE)`).
- An unknown first argument returns the tracked exit code: 1 when the
  distribution was registered before, 0 right after a successful install.
- The PowerShell script recognises an existing profile by its name, not its
  GUID, so it can list the GUID twice (`DistributionInfo.ScriptDuplicatesGuid`).

## Model

| member | source | states |
|---|---|---|
| `Win32.HresultFromWin32` | DistroLauncher/DistroLauncher.cpp:216-218 | a positive Win32 code becomes a failing HRESULT in the Win32 facility keeping the code's low 16 bits; non-positive values pass through |
| `Win32.DistinguishedErrors` | DistroLauncher/DistroLauncher.cpp:173-174 | E_INVALIDARG and HRESULT_FROM_WIN32(ERROR_ALREADY_EXISTS) are both failures and are distinct |
| `Fonts.TtfExtension` | DistroLauncher/DistroLauncher.cpp:42 | a file name has extension ".ttf" exactly when it ends in ".ttf" after at least one other character, and then its stem is the name without ".ttf" |
| `Fonts.EntriesCalls` | DistroLauncher/DistroLauncher.cpp:41-63 | the loop only copies files and sets font values, and its first call, if any, is a copy |
| `Fonts.FontsCalls` | DistroLauncher/DistroLauncher.cpp:36-39 | a missing fonts directory means no call at all; the font installer never calls WSL or touches a user |
| `Fonts.EntriesCallsAppend` | DistroLauncher/DistroLauncher.cpp:41-63 | the calls for a directory are those of its first part followed by those of the rest, so one file's failure never stops or changes the later files |
| `Fonts.InstallFontsFromWsl` | DistroLauncher/DistroLauncher.cpp:28-64 | InstallFontsFromWSL's per-entry loop makes exactly the calls of the reference definition |
| `Fonts.FontValueWritten` | DistroLauncher/DistroLauncher.cpp:47-59 | a registry value is written iff some regular `.ttf` file was copied and the key opened, with name stem + " (TrueType)" and data the file name |
| `Fonts.FontCopied` | DistroLauncher/DistroLauncher.cpp:42-47 | a copy is made iff the entry is a regular `.ttf` file, from `fonts\name` to `C:\Windows\Fonts\name`, always with overwrite allowed |
| `Fonts.ValueFollowsCopy` | DistroLauncher/DistroLauncher.cpp:47-56 | every font value is written immediately after the copy of the file it names |
| `TerminalProfile.FindTargetProfile` | DistroLauncher/DistroLauncher.cpp:92-100 | the scan with early exit reports true iff some entry's `guid` is the target GUID string |
| `TerminalProfile.MergeByGuid` | DistroLauncher/DistroLauncher.cpp:102-114 | the merged list always holds the target GUID, extends the old list by at most one entry, and the rest of the document is unchanged |
| `TerminalProfile.MergeAddsExactlyOne` | DistroLauncher/DistroLauncher.cpp:92-121 | with the GUID present nothing changes; without it exactly one entry with the GUID is appended at the end after all old entries in order |
| `TerminalProfile.MergeNeverDuplicates` | DistroLauncher/DistroLauncher.cpp:95-114 | the number of entries with the target GUID after the merge is 1 if it was 0, and unchanged otherwise |
| `TerminalProfile.MergeIdempotent` | DistroLauncher/DistroLauncher.cpp:92-121 | merging twice equals merging once |
| `TerminalProfile.MergeIgnoresNames` | DistroLauncher/DistroLauncher.cpp:95-99 | lists that differ only in `name` fields get the same duplicate verdict and the same merge decision |
| `TerminalProfile.AddTerminalProfile` | DistroLauncher/DistroLauncher.cpp:67-122 | at most one write; a write happens iff USERPROFILE is non-empty, the file parsed, the GUID is absent and the output opens, and it writes the merged document to the settings path; a missing, unreadable or malformed file is never created or written |
| `TerminalProfile.SecondRunWritesNothing` | DistroLauncher/DistroLauncher.cpp:95-121 | running again on the document just written writes nothing |
| `Install.SetDefaultUser` | DistroLauncher/DistroLauncher.cpp:168-183 | the UID sentinel gives E_INVALIDARG without calling WslConfigureDistribution; otherwise the result is exactly the configure call's HRESULT, with the default flags |
| `Install.PromptCalls` | DistroLauncher/DistroLauncher.cpp:147-150 | one CreateUser call per name typed, in order, ending with the accepted one |
| `Install.InstallDistribution` | DistroLauncher/DistroLauncher.cpp:127-166 | every install starts by registering the distribution, succeeds exactly when every hard step succeeds whatever the soft steps meet, and without user creation makes no CreateUser, QueryUid or WslConfigureDistribution call |
| `Install.RegisterFailureStops` | DistroLauncher/DistroLauncher.cpp:131-134 | a failed registration is returned as is and nothing after it runs |
| `Install.ResolvConfFailureStops` | DistroLauncher/DistroLauncher.cpp:137-141 | a failed launch of `rm /etc/resolv.conf` is returned as is and nothing after it runs |
| `Install.RmExitCodeIgnored` | DistroLauncher/DistroLauncher.cpp:137-141 | the guest exit code of `rm` has no influence on the install |
| `Install.UserSetupFailureSkipsSoftSteps` | DistroLauncher/DistroLauncher.cpp:153-156 | a failed SetDefaultUser is returned before fonts and the terminal profile run |
| `Install.SoftStepsFollowHardSteps` | DistroLauncher/DistroLauncher.cpp:159-165 | once the hard steps succeed, fonts then the profile always run after them, and the result is the last hard step's HRESULT |
| `Install.SoftStepsCannotFail` | DistroLauncher/DistroLauncher.cpp:159-165 | whatever modelled answers fonts and the terminal profile meet, the install's HRESULT is the same |
| `Install.OnlyAcceptedNameLookedUp` | DistroLauncher/DistroLauncher.cpp:144-177 | whatever the answers, the only name the install looks up is the one CreateUser accepted |
| `Install.PromptRepeatsUntilCreated` | DistroLauncher/DistroLauncher.cpp:144-177 | the prompt calls CreateUser for every rejected name, then the accepted one; only that name is looked up, and a valid UID is configured as default right after the lookup |
| `Launcher.CommandLineAppend` | DistroLauncher/DistroLauncher.cpp:241-245 | the command for two runs of arguments is the two commands concatenated |
| `Launcher.CommandLineLength` | DistroLauncher/DistroLauncher.cpp:241-245 | the command is as long as the arguments plus one space each: nothing quoted, dropped or merged |
| `Launcher.BuildCommand` | DistroLauncher/DistroLauncher.cpp:241-245 | wmain's loop appending " " and each argument builds the reference command line |
| `Launcher.Finish` | DistroLauncher/DistroLauncher.cpp:281 | a failed final HRESULT always gives exit code 1 |
| `Launcher.Dispatch` | DistroLauncher/DistroLauncher.cpp:228-265 | the dispatch only launches in the guest or sets the default user |
| `Launcher.EntryPoint` | DistroLauncher/DistroLauncher.cpp:185-282 | the first call is the optional-component check, and any failed HRESULT gives exit code 1 |
| `Launcher.MissingComponentExitsOne` | DistroLauncher/DistroLauncher.cpp:197-205 | without the optional component the exit code is 1 and no other WSL call is made |
| `Launcher.InstallOnlyWhenUnregistered` | DistroLauncher/DistroLauncher.cpp:207-225 | after the two probes come exactly the install's calls, and a registration is attempted iff the distribution was not registered |
| `Launcher.CreateUserUnlessInstallRoot` | DistroLauncher/DistroLauncher.cpp:208-214 | when an install runs and passes registration and resolv.conf, a CreateUser call is made exactly unless the first two arguments are `install --root` |
| `Launcher.FailedInstallSkipsDispatch` | DistroLauncher/DistroLauncher.cpp:224-228 | a failed install exits with 1 and no command is dispatched |
| `Launcher.AlreadyExistsExitsOne` | DistroLauncher/DistroLauncher.cpp:215-224 | an install failing with ERROR_ALREADY_EXISTS still exits with 1 |
| `Launcher.InstallWhenRegisteredExitsOne` | DistroLauncher/DistroLauncher.cpp:197-228 | `install` on a registered distribution exits with 1 after only the two probes |
| `Launcher.InstallSuccessExitsZero` | DistroLauncher/DistroLauncher.cpp:224 | a successful `install` exits with 0 |
| `Launcher.RunPropagatesGuestExitCode` | DistroLauncher/DistroLauncher.cpp:238-247 | `run`/`-c` launches " "+arg for each remaining argument and returns the guest's exit code, or 1 if the launch failed |
| `Launcher.NoArgumentsLaunchesShell` | DistroLauncher/DistroLauncher.cpp:229-236 | with no arguments the default shell is launched and its exit code returned, or 1 if the launch failed |
| `Launcher.ConfigNeedsExactArguments` | DistroLauncher/DistroLauncher.cpp:249-259 | `config` without exactly `--default-user <name>` fails with E_INVALIDARG, exits with 1 and makes no further call |
| `Launcher.ConfigDefaultUser` | DistroLauncher/DistroLauncher.cpp:249-259 | `config --default-user <name>` looks the name up and, for a valid UID, configures it as default, adding no other call; it returns SetDefaultUser's HRESULT and exits with 0 iff it succeeded |
| `Launcher.UnknownArgumentKeepsExitCode` | DistroLauncher/DistroLauncher.cpp:261-264 | an unknown first argument makes no call and returns the tracked exit code: 1 if registered before, 0 after a fresh install |
| `DistributionInfo.RunPowerShellCommand` | DistroLauncher/DistributionInfo.cpp:7-16 | success iff the launch succeeded and the exit code, initially 0, is 0; whenever asked for, the exit code is handed back (the stored one, else 0), even after a failed launch |
| `DistributionInfo.AddZenoraProfileToWindowsTerminal` | DistroLauncher/DistributionInfo.cpp:62-63 | the result is exactly RunPowerShellCommand's for the wrapped script, with no exit code asked for |
| `DistributionInfo.ScriptProfileKeys` | DistroLauncher/DistributionInfo.cpp:43-52 | the script's profile carries both the name Zenora and the target GUID |
| `DistributionInfo.MergeByName` | DistroLauncher/DistributionInfo.cpp:39-55 | the merged list always holds an entry named Zenora, extends the old list by at most one, and the rest is unchanged |
| `DistributionInfo.RunProfileScript` | DistroLauncher/DistributionInfo.cpp:25-59 | a skeleton is written first exactly when the file is missing and can be created (never before a failed read), and the run completes exactly when the file parses or is missing and can be created |
| `DistributionInfo.MissingFileGetsSkeleton` | DistroLauncher/DistributionInfo.cpp:25-58 | with no file the script writes the skeleton, then the skeleton with exactly its one profile; when the skeleton cannot be created the read fails and nothing is written |
| `DistributionInfo.ExistingFileWrittenOnlyWithoutName` | DistroLauncher/DistributionInfo.cpp:39-58 | an existing file is rewritten only when no entry is named Zenora, and then with the profile appended and all else kept |
| `DistributionInfo.MergeByNameIdempotent` | DistroLauncher/DistributionInfo.cpp:39-58 | merging by name twice equals merging once |
| `DistributionInfo.MergeByNameIgnoresGuid` | DistroLauncher/DistributionInfo.cpp:39 | lists that differ only in `guid` fields get the same duplicate verdict |
| `DistributionInfo.ScriptDuplicatesGuid` | DistroLauncher/DistributionInfo.cpp:39-55 | for every document where some profile has the target GUID and none is named Zenora, the guid merge changes nothing while the script adds one more target, so the GUID is listed at least twice |
| `DistributionInfo.GuidMergeIgnoresZenoraName` | DistroLauncher/DistributionInfo.cpp:39 | for every document where some profile is named Zenora in any case and none has the target GUID, the script changes nothing while the guid merge appends its profile |
| `DistributionInfo.MissingFileContrast` | DistroLauncher/DistributionInfo.cpp:25-33 | for a missing file the guid merge writes nothing, while the script completes, writing the file, exactly when it can create it |

## Left out

- Console output: the window title, status and error messages, the usage text, the `HCS_E_HYPERV_NOT_INSTALLED` message choice and every `PromptForInput` pause; none of them changes a result.
- `Helpers::GetUserInput` and its 32-character limit: the typed names are given directly.
- The username loop has no bound in the code; the model takes the names CreateUser rejected followed by the one it accepted, so a user who never types an acceptable name is not represented.
- The bodies of `DistributionInfo::CreateUser` and `QueryUid` and the WSL API loader: their answers are inputs.
- `_wgetenv` returning a null pointer: the model takes the variable's value as a string and models only the empty case.
- JSON text handling: parsing and `dump(4)` formatting, nlohmann's creation of a missing `profiles` or `list` on access, and type errors for a non-object `profiles`; the document is always an abstract profile list plus the other fields.
- PowerShell's `ConvertFrom-Json`/`ConvertTo-Json` behaviour and depth limits; a written skeleton is assumed to read back as itself.
- PowerShell's `-eq` is modelled as ASCII case folding; culture-aware folding of other letters is not.
- DistributionInfo.RunProfileScript: after a failed read `$settings` is null, the `+=` on its profile list fails, and the final line still pipes null into `ConvertTo-Json | Set-Content`, which probably replaces the file with `null`; that write is not modelled, so `ReadFailed` records only the writes made before the read.
- DistributionInfo.RunProfileScript: the final `Set-Content` of an existing file is assumed to succeed (a read-only file is not represented); only the creation of a missing file has a failure input.
- DistributionInfo.AddZenoraProfileToWindowsTerminal: the script text is represented by a placeholder constant, and the launch outcome is an input not connected to `RunProfileScript`'s effect on the file.
- Install.SoftStepsCannotFail: holds only for the answers the model represents. An exception escaping a soft step ends the launcher after registration and user creation: nlohmann's `type_error` when `profiles` is not an object (the older array form), a `filesystem_error` from the fonts loop, and a `std::wstring` built from a null `_wgetenv` result. None of these is represented.
- std::filesystem exceptions (for example a `fonts` path that is a file), path separators and the registry handle's lifetime; the result of `RegSetValueEx` is ignored by the code and not modelled.
- File-write atomicity: both merges truncate the file in place, so there is nothing atomic to model.
- The `acrylicOpacity` floating-point value is kept as an opaque literal.
- The process exit code is the DWORD wmain returns through `int`; the model keeps the DWORD.

=== FILE: calls.dfy ===
/**
 * The calls the launcher makes to the world outside it: the WSL API, the
 * guest, the host file system and the registry. Every operation of the model
 * returns the sequence of calls it made, so that "no later step runs" and
 * "nothing is written" can be stated about that sequence.
 */
module Calls {
  import opened Win32
  import opened Wrappers
  import opened Settings

  datatype Call =
    | IsOptionalComponentInstalled
    | IsDistributionRegistered
    | RegisterDistribution
      /** WslLaunchInteractive: runs `command` in the guest and waits for it. */
    | LaunchInteractive(command: string, useCurrentWorkingDirectory: bool)
    | ConfigureDistribution(uid: Dword, flags: Dword)
      /** Creates a guest account; its implementation is not part of this model. */
    | CreateUser(userName: string)
      /** Looks up a guest account's UID; its implementation is not part of this model. */
    | QueryUid(userName: string)
      /** CopyFile; `failIfExists` false means an existing destination is overwritten. */
    | CopyFile(source: string, destination: string, failIfExists: bool)
      /** A string value under HKLM\SOFTWARE\Microsoft\Windows NT\CurrentVersion\Fonts. */
    | SetFontValue(valueName: string, data: string)
      /** The settings file truncated and rewritten with `doc`. */
    | WriteSettings(path: string, doc: Document)

  /**
   * What WslLaunchInteractive answers: its HRESULT, and the value it stores
   * through the exit-code pointer (`None` when it stores nothing, so the
   * caller's variable keeps what it held).
   */
  datatype LaunchOutcome = LaunchOutcome(hr: Hresult, exitCode: Option<Dword>)

  /** Calls that act on a guest user account. */
  predicate IsUserCall(c: Call) {
    c.CreateUser? || c.QueryUid? || c.ConfigureDistribution?
  }

  /** Calls into the WSL API or into the guest, as opposed to the host's files and registry. */
  predicate IsWslCall(c: Call) {
    !(c.CopyFile? || c.SetFontValue? || c.WriteSettings?)
  }
}

=== FILE: distribution_info.dfy ===
/**
 * RunPowerShellCommand and AddZenoraProfileToWindowsTerminal, together with
 * what the embedded PowerShell script is written to do to the settings file.
 * Unlike AddTerminalProfile, the script creates a skeleton file when there is
 * none and recognises an existing profile by its `name`, compared the way
 * PowerShell's `-eq` compares strings (ignoring case), not by its GUID.
 *
 * Nothing in the launcher calls AddZenoraProfileToWindowsTerminal, and
 * RunPowerShellCommand hands its command to WslLaunchInteractive, so it would
 * reach the Linux guest's shell rather than Windows PowerShell. The script
 * model below therefore describes the script text's intent.
 */
module DistributionInfo {
  import opened Win32
  import opened Wrappers
  import opened Settings
  import opened Calls
  import TerminalProfile

  /** What a PowerShell run reports: success, the exit code handed back if asked for, and the calls made. */
  datatype PowerShellRun = PowerShellRun(ok: bool, reportedExitCode: Option<Dword>, trace: seq<Call>)

  /**
   * Launches `command` in the current directory and waits for it. The exit
   * code starts at 0, so it stays 0 when the launch stores none; it is handed
   * back whenever the caller asks, whether or not the launch succeeded.
   */
  function RunPowerShellCommand(command: string, wantsExitCode: bool, launch: LaunchOutcome): (r: PowerShellRun)
    ensures r.trace == [LaunchInteractive(command, true)]
    ensures r.ok <==> Succeeded(launch.hr) && (launch.exitCode == None || launch.exitCode == Some(0))
    ensures wantsExitCode <==> r.reportedExitCode.Some?
    ensures r.ok && wantsExitCode ==> r.reportedExitCode == Some(0)
    ensures wantsExitCode ==> r.reportedExitCode == Some(launch.exitCode.GetOr(0))
  {
    var exitCode := launch.exitCode.GetOr(0);
    PowerShellRun(Succeeded(launch.hr) && exitCode == 0,
                  if wantsExitCode then Some(exitCode) else None,
                  [LaunchInteractive(command, true)])
  }

  /**
   * Stands for the text of the embedded script; the script's behaviour is
   * given by RunProfileScript below rather than by its characters.
   */
  const ProfileScript: string := "<Zenora profile script>"

  const PowerShellInvocation: string := "powershell -Command \"" + ProfileScript + "\""

  /** The result is exactly RunPowerShellCommand's for the wrapped script, with no exit code asked for. */
  function AddZenoraProfileToWindowsTerminal(launch: LaunchOutcome): (r: PowerShellRun)
    ensures r == RunPowerShellCommand(PowerShellInvocation, false, launch)
    ensures r.ok <==> Succeeded(launch.hr) && launch.exitCode.GetOr(0) == 0
    ensures r.reportedExitCode == None
  {
    RunPowerShellCommand(PowerShellInvocation, false, launch)
  }

  const SchemaUrl: string := "https://aka.ms/terminal-profiles-schema"

  /** The file the script writes when there is none: a schema marker and an empty profile list. */
  const Skeleton: Document := Document([], map["$schema" := Text(SchemaUrl)])

  /** The profile the script appends. */
  const ScriptProfile: Value := Object(map[
    "guid" := Text(TerminalProfile.TargetGuid),
    "name" := Text("Zenora"),
    "fontFace" := Text("0xProto Nerd Font Mono"),
    "fontSize" := Integer(12),
    "useAcrylic" := Flag(true),
    "acrylicOpacity" := Opaque("0.8"),
    "hidden" := Flag(false),
    "source" := Text("Windows.Terminal.Wsl")
  ])

  /** The script's profile carries both keys: the name Zenora and the target GUID. */
  lemma ScriptProfileKeys()
    ensures NamedZenora(ScriptProfile)
    ensures TerminalProfile.IsTarget(ScriptProfile)
  {
    assert ScriptProfile.fields["name"] == Text("Zenora");
    assert Lower("Zenora") == "zenora";
  }

  /** ASCII lower case of one character. */
  function LowerChar(c: char): char {
    if 'A' <= c <= 'Z' then (c as int + 32) as char else c
  }

  /** ASCII lower case of a string. */
  function Lower(s: string): (r: string)
    ensures |r| == |s|
    ensures forall i :: 0 <= i < |s| ==> r[i] == LowerChar(s[i])
  {
    if s == [] then [] else [LowerChar(s[0])] + Lower(s[1..])
  }

  /** `$_.name -eq "Zenora"`: the entry's name is "Zenora" up to case. */
  predicate NamedZenora(p: Value) {
    p.Object? && "name" in p.fields && p.fields["name"].Text? && Lower(p.fields["name"].text) == "zenora"
  }

  predicate ContainsZenora(list: seq<Value>) {
    exists i :: 0 <= i < |list| && NamedZenora(list[i])
  }

  /** The script's merge: append ScriptProfile unless some entry is named Zenora. */
  function MergeByName(doc: Document): (r: Document)
    ensures r.rest == doc.rest
    ensures ContainsZenora(r.list)
    ensures doc.list <= r.list && |r.list| <= |doc.list| + 1
  {
    if ContainsZenora(doc.list) then doc
    else
      var r := AppendProfile(doc, ScriptProfile);
      ScriptProfileKeys();
      assert NamedZenora(r.list[|doc.list|]);
      r
  }

  /**
   * What a run of the script, as its text is written, does to the file (an
   * intent: the launcher never runs it in PowerShell). `writes` and
   * `writesBefore` hold the writes that took effect. A read that fails leaves
   * `$settings` null; what the script writes after that is not modelled, so
   * `ReadFailed` records only the writes made before the read.
   */
  datatype ScriptRun =
    | Completed(writes: seq<Document>)
    | ReadFailed(writesBefore: seq<Document>)

  /**
   * `canCreate` says whether `Set-Content` can create the missing file; it
   * cannot when the LocalState folder does not exist, for instance when
   * Windows Terminal is not installed. A skeleton that was not written makes
   * the read that follows fail.
   */
  function RunProfileScript(file: SettingsFile, canCreate: bool): (r: ScriptRun)
    ensures (file.Missing? && canCreate) <==> (r.Completed? && |r.writes| >= 1 && r.writes[0] == Skeleton)
    ensures r.Completed? <==> (file.Missing? && canCreate) || file.Parsed?
    ensures r.ReadFailed? ==> r.writesBefore == []
  {
    var created := if file.Missing? && canCreate then [Skeleton] else [];
    var read := match file
      case Missing => if canCreate then Some(Skeleton) else None
      case Parsed(doc) => Some(doc)
      case _ => None;
    match read
    case None => ReadFailed(created)
    case Some(doc) =>
      if ContainsZenora(doc.list) then Completed(created)
      else Completed(created + [MergeByName(doc)])
  }

  /**
   * With no settings file the script first writes the skeleton, then reads it
   * back and writes it again with exactly one profile, its own. When the
   * skeleton cannot be written, the read fails and nothing is written.
   */
  lemma MissingFileGetsSkeleton()
    ensures RunProfileScript(Missing, true) == Completed([Skeleton, Skeleton.(list := [ScriptProfile])])
    ensures RunProfileScript(Missing, false) == ReadFailed([])
  {
    assert !ContainsZenora([]);
  }

  /** An existing file is rewritten only when no entry is named Zenora, and then with ScriptProfile appended. */
  lemma ExistingFileWrittenOnlyWithoutName(doc: Document, canCreate: bool)
    ensures ContainsZenora(doc.list) ==> RunProfileScript(Parsed(doc), canCreate) == Completed([])
    ensures !ContainsZenora(doc.list) ==>
              RunProfileScript(Parsed(doc), canCreate) == Completed([Document(doc.list + [ScriptProfile], doc.rest)])
  {
  }

  /** Merging by name twice is merging once. */
  lemma MergeByNameIdempotent(doc: Document)
    ensures MergeByName(MergeByName(doc)) == MergeByName(doc)
  {
  }

  /** The script's duplicate test ignores `guid`: lists that differ only there are merged alike. */
  lemma MergeByNameIgnoresGuid(a: Document, b: Document)
    requires ListsAgreeOutside(a.list, b.list, "guid")
    ensures ContainsZenora(a.list) <==> ContainsZenora(b.list)
  {
    forall i | 0 <= i < |a.list|
      ensures NamedZenora(a.list[i]) <==> NamedZenora(b.list[i])
    {
      var u, v := a.list[i], b.list[i];
      if u != v {
        assert "name" in u.fields <==> "name" in u.fields - {"guid"};
        assert "name" in v.fields <==> "name" in v.fields - {"guid"};
        if "name" in u.fields {
          assert u.fields["name"] == (u.fields - {"guid"})["name"];
        }
        if "name" in v.fields {
          assert v.fields["name"] == (v.fields - {"guid"})["name"];
        }
      }
    }
    if ContainsZenora(a.list) {
      var i :| 0 <= i < |a.list| && NamedZenora(a.list[i]);
      assert NamedZenora(b.list[i]);
    }
    if ContainsZenora(b.list) {
      var i :| 0 <= i < |b.list| && NamedZenora(b.list[i]);
      assert NamedZenora(a.list[i]);
    }
  }

  /**
   * The two merges key on different fields. Whenever a profile already
   * carries the GUID but none is named Zenora, AddTerminalProfile leaves the
   * document alone while the script adds one more entry with the GUID, so the
   * GUID is then listed at least twice.
   */
  lemma ScriptDuplicatesGuid(doc: Document)
    requires TerminalProfile.ContainsTarget(doc.list) && !ContainsZenora(doc.list)
    ensures TerminalProfile.MergeByGuid(doc) == doc
    ensures TerminalProfile.CountTargets(MergeByName(doc).list) == TerminalProfile.CountTargets(doc.list) + 1
    ensures TerminalProfile.CountTargets(MergeByName(doc).list) >= 2
  {
    ScriptProfileKeys();
    assert MergeByName(doc).list == doc.list + [ScriptProfile];
    TerminalProfile.CountAppend(doc.list, [ScriptProfile]);
    assert TerminalProfile.CountTargets([ScriptProfile]) == 1 by {
      assert [ScriptProfile][1..] == [];
    }
    TerminalProfile.CountZeroIffAbsent(doc.list);
  }

  /**
   * Whenever some profile is named Zenora, in any case, and none carries the
   * GUID, the script leaves the document alone while AddTerminalProfile
   * appends its profile.
   */
  lemma GuidMergeIgnoresZenoraName(doc: Document)
    requires ContainsZenora(doc.list) && !TerminalProfile.ContainsTarget(doc.list)
    ensures MergeByName(doc) == doc
    ensures TerminalProfile.MergeByGuid(doc).list == doc.list + [TerminalProfile.NewProfile]
  {
  }

  /**
   * Where the file is missing, AddTerminalProfile leaves it missing while the
   * script creates it whenever it can.
   */
  lemma MissingFileContrast(env: TerminalProfile.TerminalEnv, canCreate: bool)
    requires env.settings == Missing
    ensures TerminalProfile.AddTerminalProfile(env) == []
    ensures RunProfileScript(Missing, canCreate).Completed? <==> canCreate
    ensures canCreate ==> RunProfileScript(Missing, canCreate).writes != []
  {
  }
}

=== FILE: fonts.dfy ===
/**
 * InstallFontsFromWSL: copies every `.ttf` file of the `fonts` directory into
 * the system font folder and, for each copy that succeeds, registers the font
 * under the Fonts registry key. The answers of the file system and the
 * registry are fixed in advance, per directory entry.
 */
module Fonts {
  import opened Wrappers
  import opened Calls

  /**
   * One entry of the `fonts` directory, with the answers the host gives for it:
   * whether CopyFile succeeds and whether the Fonts registry key opens.
   */
  datatype DirEntry = DirEntry(fileName: string, isRegularFile: bool, copySucceeds: bool, keyOpens: bool)

  datatype FontsEnv = FontsEnv(fontsDirExists: bool, entries: seq<DirEntry>)

  const FontsDir: string := "fonts"
  const SystemFontsFolder: string := "C:\\Windows\\Fonts"
  const TrueTypeSuffix: string := " (TrueType)"

  /** Index of the last '.' in `s`. */
  function LastDot(s: string): (r: Option<nat>)
    ensures r.Some? ==> r.value < |s| && s[r.value] == '.'
    ensures r.Some? ==> forall j :: r.value < j < |s| ==> s[j] != '.'
    ensures r.None? ==> forall j :: 0 <= j < |s| ==> s[j] != '.'
  {
    if s == [] then None
    else if s[|s| - 1] == '.' then Some(|s| - 1)
    else LastDot(s[..|s| - 1])
  }

  /**
   * Where std::filesystem::path::extension starts in a file name: at the last
   * '.', unless that dot is the name's first character or the name is "." or "..".
   */
  function ExtensionStart(name: string): (k: nat)
    ensures k <= |name|
  {
    if name == "." || name == ".." then |name|
    else match LastDot(name)
      case Some(i) => if 0 < i then i else |name|
      case None => |name|
  }

  /** path::extension of a file name. */
  function Extension(name: string): string {
    name[ExtensionStart(name)..]
  }

  /** path::stem of a file name. */
  function Stem(name: string): string {
    name[..ExtensionStart(name)]
  }

  /** A name has extension ".ttf" exactly when it ends in ".ttf" after at least one other character. */
  lemma TtfExtension(name: string)
    ensures Extension(name) == ".ttf" <==> 4 < |name| && name[|name| - 4..] == ".ttf"
    ensures Extension(name) == ".ttf" ==> Stem(name) == name[..|name| - 4]
  {
    if 4 < |name| && name[|name| - 4..] == ".ttf" {
      assert name[|name| - 4] == '.';
      assert forall j :: |name| - 4 < j < |name| ==> name[j] != '.' by {
        forall j | |name| - 4 < j < |name| ensures name[j] != '.' {
          assert name[j] == name[|name| - 4..][j - (|name| - 4)];
        }
      }
      assert LastDot(name) == Some(|name| - 4);
    }
    if Extension(name) == ".ttf" {
      var k := ExtensionStart(name);
      assert |name| - k == 4;
      assert k != |name|;
    }
  }

  /** The files the loop acts on: regular files whose extension is exactly ".ttf". */
  predicate IsFontFile(e: DirEntry) {
    e.isRegularFile && Extension(e.fileName) == ".ttf"
  }

  function SourcePath(e: DirEntry): string { FontsDir + "\\" + e.fileName }
  function DestinationPath(e: DirEntry): string { SystemFontsFolder + "\\" + e.fileName }

  /** The registry value registering a font file: its stem followed by " (TrueType)". */
  function ValueName(e: DirEntry): string { Stem(e.fileName) + TrueTypeSuffix }

  /** The calls one directory entry causes. */
  function EntryCalls(e: DirEntry): seq<Call> {
    if !IsFontFile(e) then []
    else [CopyFile(SourcePath(e), DestinationPath(e), false)]
         + (if e.copySucceeds && e.keyOpens then [SetFontValue(ValueName(e), e.fileName)] else [])
  }

  /** The calls a sequence of directory entries causes, in order. */
  function EntriesCalls(es: seq<DirEntry>): (t: seq<Call>)
    ensures forall c :: c in t ==> c.CopyFile? || c.SetFontValue?
    ensures t != [] ==> t[0].CopyFile?
  {
    if es == [] then [] else EntryCalls(es[0]) + EntriesCalls(es[1..])
  }

  /** Everything InstallFontsFromWSL does: nothing at all when the fonts directory is missing. */
  function FontsCalls(env: FontsEnv): (t: seq<Call>)
    ensures !env.fontsDirExists ==> t == []
    ensures forall c :: c in t ==> !IsUserCall(c) && !IsWslCall(c)
  {
    if env.fontsDirExists then EntriesCalls(env.entries) else []
  }

  /**
   * The calls for a directory are those of its first part followed by those
   * of the rest: what happens to one file, copy failure included, never
   * changes or stops what happens to the files after it.
   */
  lemma {:induction false} EntriesCallsAppend(a: seq<DirEntry>, b: seq<DirEntry>)
    ensures EntriesCalls(a + b) == EntriesCalls(a) + EntriesCalls(b)
    decreases |a|
  {
    if a == [] {
      assert a + b == b;
    } else {
      assert (a + b)[0] == a[0];
      assert (a + b)[1..] == a[1..] + b;
      EntriesCallsAppend(a[1..], b);
    }
  }

  lemma OneMoreEntry(es: seq<DirEntry>, i: nat)
    requires i < |es|
    ensures EntriesCalls(es[..i + 1]) == EntriesCalls(es[..i]) + EntryCalls(es[i])
  {
    EntriesCallsAppend(es[..i], [es[i]]);
    assert es[..i + 1] == es[..i] + [es[i]];
    assert [es[i]][1..] == [];
  }

  /** The installer loop, one entry at a time, as InstallFontsFromWSL iterates the directory. */
  method InstallFontsFromWsl(env: FontsEnv) returns (trace: seq<Call>)
    ensures trace == FontsCalls(env)
  {
    trace := [];
    if !env.fontsDirExists {
      return;
    }
    for i := 0 to |env.entries|
      invariant trace == EntriesCalls(env.entries[..i])
    {
      var e := env.entries[i];
      var step: seq<Call> := [];
      if e.isRegularFile && Extension(e.fileName) == ".ttf" {
        step := [CopyFile(FontsDir + "\\" + e.fileName, SystemFontsFolder + "\\" + e.fileName, false)];
        if e.copySucceeds {
          if e.keyOpens {
            step := step + [SetFontValue(Stem(e.fileName) + TrueTypeSuffix, e.fileName)];
          }
        }
      }
      assert step == EntryCalls(e);
      OneMoreEntry(env.entries, i);
      trace := trace + step;
    }
    assert env.entries[..|env.entries|] == env.entries;
  }

  /**
   * A font value is written exactly for the regular `.ttf` files whose copy
   * succeeded and for which the registry key opened; its name is the stem plus
   * " (TrueType)" and its data the file name.
   */
  lemma {:induction false} FontValueWritten(es: seq<DirEntry>, name: string, data: string)
    ensures SetFontValue(name, data) in EntriesCalls(es) <==>
              exists e :: e in es && IsFontFile(e) && e.copySucceeds && e.keyOpens
                          && name == ValueName(e) && data == e.fileName
    decreases |es|
  {
    if es != [] {
      FontValueWritten(es[1..], name, data);
      assert forall e :: e in es <==> e == es[0] || e in es[1..] by {
        assert es == [es[0]] + es[1..];
      }
    }
  }

  /** A file is copied, never with fail-if-exists, exactly when it is a regular `.ttf` file of the directory. */
  lemma {:induction false} FontCopied(es: seq<DirEntry>, source: string, destination: string, failIfExists: bool)
    ensures CopyFile(source, destination, failIfExists) in EntriesCalls(es) <==>
              !failIfExists && exists e :: e in es && IsFontFile(e)
                                           && source == SourcePath(e) && destination == DestinationPath(e)
    decreases |es|
  {
    if es != [] {
      FontCopied(es[1..], source, destination, failIfExists);
      assert forall e :: e in es <==> e == es[0] || e in es[1..] by {
        assert es == [es[0]] + es[1..];
      }
    }
  }

  /** Every font value is written right after the copy of the file it names. */
  lemma {:induction false} ValueFollowsCopy(es: seq<DirEntry>)
    ensures forall k :: 0 <= k < |EntriesCalls(es)| && EntriesCalls(es)[k].SetFontValue? ==>
              0 < k && EntriesCalls(es)[k - 1] == CopyFile(FontsDir + "\\" + EntriesCalls(es)[k].data,
                                                           SystemFontsFolder + "\\" + EntriesCalls(es)[k].data, false)
    decreases |es|
  {
    if es != [] {
      ValueFollowsCopy(es[1..]);
      var h := EntryCalls(es[0]);
      var t := EntriesCalls(es);
      var tail := EntriesCalls(es[1..]);
      assert t == h + tail;
      forall k | 0 <= k < |t| && t[k].SetFontValue?
        ensures 0 < k && t[k - 1] == CopyFile(FontsDir + "\\" + t[k].data, SystemFontsFolder + "\\" + t[k].data, false)
      {
        if k < |h| {
          assert k == 1 && t[0] == h[0] && t[1] == h[1];
          assert h[1].data == es[0].fileName;
        } else {
          var j := k - |h|;
          assert t[k] == tail[j];
          assert tail[j].SetFontValue?;
          assert 0 < j;
          assert tail[j - 1] == CopyFile(FontsDir + "\\" + tail[j].data, SystemFontsFolder + "\\" + tail[j].data, false);
          assert t[k - 1] == tail[j - 1];
        }
      }
    }
  }
}

=== FILE: install.dfy ===
/**
 * InstallDistribution and SetDefaultUser. Registration, the removal of
 * /etc/resolv.conf and the default-user setup are hard steps: a failure
 * returns its HRESULT at once. Fonts and the terminal profile are soft steps:
 * they run once the hard steps have succeeded and, for the answers modelled
 * here, cannot change the result; an exception escaping one of them is not
 * modelled.
 */
module Install {
  import opened Win32
  import opened Calls
  import Fonts
  import TerminalProfile

  /**
   * The answers the outside world gives during one install: the HRESULTs of
   * the WSL calls, the user names typed at the prompt (those CreateUser
   * rejected, then the one it accepted), the UID the accepted name resolves to,
   * and the hosts' answers for the two soft steps.
   */
  datatype InstallEnv = InstallEnv(
    registerHr: Hresult,
    resolvConf: LaunchOutcome,
    rejectedNames: seq<string>,
    acceptedName: string,
    uid: Dword,
    configureHr: Hresult,
    fonts: Fonts.FontsEnv,
    terminal: TerminalProfile.TerminalEnv)

  /** An HRESULT together with the calls made to reach it. */
  datatype Step = Step(hr: Hresult, trace: seq<Call>)

  const ResolvConfCommand: string := "/bin/rm /etc/resolv.conf"

  /**
   * SetDefaultUser: resolves the name to a UID and makes it the distribution's
   * default user. The sentinel UID fails with E_INVALIDARG before the
   * distribution is touched; otherwise the result is the configure call's.
   */
  function SetDefaultUser(userName: string, uid: Dword, configureHr: Hresult): (r: Step)
    ensures |r.trace| >= 1 && r.trace[0] == QueryUid(userName)
    ensures uid == UID_INVALID ==> r.hr == E_INVALIDARG && r.trace == [QueryUid(userName)]
    ensures uid != UID_INVALID ==>
              && r.hr == configureHr
              && r.trace == [QueryUid(userName), ConfigureDistribution(uid, WSL_DISTRIBUTION_FLAGS_DEFAULT)]
  {
    var lookup := [QueryUid(userName)];
    if uid == UID_INVALID then Step(E_INVALIDARG, lookup)
    else Step(configureHr, lookup + [ConfigureDistribution(uid, WSL_DISTRIBUTION_FLAGS_DEFAULT)])
  }

  /** The username prompt: one CreateUser call per name typed, until one is accepted. */
  function PromptCalls(rejected: seq<string>, accepted: string): (t: seq<Call>)
    ensures |t| == |rejected| + 1
    ensures forall i :: 0 <= i < |rejected| ==> t[i] == CreateUser(rejected[i])
    ensures t[|rejected|] == CreateUser(accepted)
  {
    if rejected == [] then [CreateUser(accepted)]
    else [CreateUser(rejected[0])] + PromptCalls(rejected[1..], accepted)
  }

  /** The calls of the two soft steps. */
  function SoftCalls(env: InstallEnv): seq<Call> {
    Fonts.FontsCalls(env.fonts) + TerminalProfile.AddTerminalProfile(env.terminal)
  }

  /** The hard steps after registration and resolv.conf: the user setup, if asked for. */
  function UserSetup(createUser: bool, env: InstallEnv, previous: Hresult): Step {
    if createUser then
      var s := SetDefaultUser(env.acceptedName, env.uid, env.configureHr);
      Step(s.hr, PromptCalls(env.rejectedNames, env.acceptedName) + s.trace)
    else Step(previous, [])
  }

  /** The two hard steps every install starts with. */
  const RegisterAndClean: seq<Call> := [RegisterDistribution, LaunchInteractive(ResolvConfCommand, true)]

  function InstallDistribution(createUser: bool, env: InstallEnv): (r: Step)
    ensures |r.trace| >= 1 && r.trace[0] == RegisterDistribution
    ensures Succeeded(r.hr) <==> HardStepsSucceed(createUser, env)
    ensures !createUser ==> forall c :: c in r.trace ==> !IsUserCall(c)
  {
    if Failed(env.registerHr) then Step(env.registerHr, [RegisterDistribution])
    else if Failed(env.resolvConf.hr) then Step(env.resolvConf.hr, RegisterAndClean)
    else
      var user := UserSetup(createUser, env, env.resolvConf.hr);
      if Failed(user.hr) then Step(user.hr, RegisterAndClean + user.trace)
      else Step(user.hr, RegisterAndClean + user.trace + SoftCalls(env))
  }

  /** The calls of the hard steps when registration and resolv.conf succeed. */
  function HardCalls(createUser: bool, env: InstallEnv): seq<Call> {
    RegisterAndClean + UserSetup(createUser, env, env.resolvConf.hr).trace
  }

  /** The HRESULT of the last hard step when registration and resolv.conf succeed. */
  function LastHardResult(createUser: bool, env: InstallEnv): Hresult {
    UserSetup(createUser, env, env.resolvConf.hr).hr
  }

  /** Whether every hard step succeeds. */
  predicate HardStepsSucceed(createUser: bool, env: InstallEnv) {
    && Succeeded(env.registerHr)
    && Succeeded(env.resolvConf.hr)
    && Succeeded(LastHardResult(createUser, env))
  }

  /** A failed registration is returned as is, and nothing after it runs. */
  lemma RegisterFailureStops(createUser: bool, env: InstallEnv)
    requires Failed(env.registerHr)
    ensures InstallDistribution(createUser, env) == Step(env.registerHr, [RegisterDistribution])
  {
  }

  /** A failed launch of `rm` is returned as is, and nothing after it runs. */
  lemma ResolvConfFailureStops(createUser: bool, env: InstallEnv)
    requires Succeeded(env.registerHr) && Failed(env.resolvConf.hr)
    ensures InstallDistribution(createUser, env) == Step(env.resolvConf.hr, RegisterAndClean)
  {
  }

  /** The exit code of `rm` inside the guest is never looked at. */
  lemma RmExitCodeIgnored(createUser: bool, env: InstallEnv, exitCode: Wrappers.Option<Dword>)
    ensures InstallDistribution(createUser, env.(resolvConf := env.resolvConf.(exitCode := exitCode)))
            == InstallDistribution(createUser, env)
  {
  }

  /** A failed default-user setup is returned before fonts and the terminal profile run. */
  lemma UserSetupFailureSkipsSoftSteps(env: InstallEnv)
    requires Succeeded(env.registerHr) && Succeeded(env.resolvConf.hr)
    requires Failed(SetDefaultUser(env.acceptedName, env.uid, env.configureHr).hr)
    ensures InstallDistribution(true, env).hr == SetDefaultUser(env.acceptedName, env.uid, env.configureHr).hr
    ensures InstallDistribution(true, env).trace == HardCalls(true, env)
  {
  }

  /**
   * Once the hard steps succeed, fonts and the terminal profile always run,
   * after them, and the result is the last hard step's HRESULT.
   */
  lemma SoftStepsFollowHardSteps(createUser: bool, env: InstallEnv)
    requires HardStepsSucceed(createUser, env)
    ensures InstallDistribution(createUser, env) == Step(LastHardResult(createUser, env), HardCalls(createUser, env) + SoftCalls(env))
  {
  }

  /** Whatever modelled answers the soft steps meet, the install's HRESULT is the same. */
  lemma SoftStepsCannotFail(createUser: bool, env: InstallEnv, fonts: Fonts.FontsEnv, terminal: TerminalProfile.TerminalEnv)
    ensures InstallDistribution(createUser, env.(fonts := fonts, terminal := terminal)).hr
            == InstallDistribution(createUser, env).hr
  {
  }

  /** However the install goes, the only name it looks up is the accepted one. */
  lemma OnlyAcceptedNameLookedUp(env: InstallEnv)
    ensures forall c :: c in InstallDistribution(true, env).trace && c.QueryUid? ==> c == QueryUid(env.acceptedName)
  {
    var p := PromptCalls(env.rejectedNames, env.acceptedName);
    var s := SetDefaultUser(env.acceptedName, env.uid, env.configureHr);
    forall c | c in p ensures c.CreateUser? {
      var i :| 0 <= i < |p| && p[i] == c;
      if i < |env.rejectedNames| {}
    }
    forall c | c in SoftCalls(env) ensures !c.QueryUid? {
      if c in Fonts.FontsCalls(env.fonts) {}
    }
    forall c | c in s.trace && c.QueryUid? ensures c == QueryUid(env.acceptedName) {}
  }

  /**
   * The prompt repeats until CreateUser accepts a name; then that name, and
   * no other, is looked up, and a valid UID is configured as the default
   * right after the lookup.
   */
  lemma PromptRepeatsUntilCreated(env: InstallEnv)
    requires Succeeded(env.registerHr) && Succeeded(env.resolvConf.hr)
    ensures var t := InstallDistribution(true, env).trace;
            && |t| >= |env.rejectedNames| + 4
            && (forall i :: 0 <= i < |env.rejectedNames| ==> t[i + 2] == CreateUser(env.rejectedNames[i]))
            && t[|env.rejectedNames| + 2] == CreateUser(env.acceptedName)
            && t[|env.rejectedNames| + 3] == QueryUid(env.acceptedName)
            && (forall c :: c in t && c.QueryUid? ==> c == QueryUid(env.acceptedName))
            && (env.uid != UID_INVALID ==>
                  t[|env.rejectedNames| + 4] == ConfigureDistribution(env.uid, WSL_DISTRIBUTION_FLAGS_DEFAULT))
  {
    var p := PromptCalls(env.rejectedNames, env.acceptedName);
    var s := SetDefaultUser(env.acceptedName, env.uid, env.configureHr);
    var t := InstallDistribution(true, env).trace;
    var hard := RegisterAndClean + (p + s.trace);
    assert t[..|hard|] == hard;
    assert forall i :: 0 <= i < |p| ==> hard[i + 2] == p[i];
    assert hard[|p| + 2] == s.trace[0];
    OnlyAcceptedNameLookedUp(env);
    if env.uid != UID_INVALID {
      assert hard[|p| + 3] == s.trace[1];
    }
  }
}

=== FILE: launcher.dfy ===
/**
 * wmain: the launcher's entry point, as a function from the argument vector
 * (without the program name) and the host's answers to the process exit code
 * and the calls made on the way.
 */
module Launcher {
  import opened Win32
  import opened Wrappers
  import opened Calls
  import opened Install

  const ArgConfig: string := "config"
  const ArgConfigDefaultUser: string := "--default-user"
  const ArgInstall: string := "install"
  const ArgInstallRoot: string := "--root"
  const ArgRun: string := "run"
  const ArgRunC: string := "-c"

  /**
   * The host's answers: whether the WSL optional component is installed,
   * whether the distribution is registered, the answers for an install, the
   * outcome of the one launch the command line asks for, and the UID lookup
   * and configure result of `config --default-user`.
   */
  datatype Host = Host(
    componentInstalled: bool,
    distributionRegistered: bool,
    install: InstallEnv,
    session: LaunchOutcome,
    configUid: Dword,
    configureHr: Hresult)

  /**
   * The process exit code, the value `hr` holds when wmain returns (none when
   * it stopped before declaring it), and the calls made.
   */
  datatype Exit = Exit(code: Dword, hr: Option<Hresult>, trace: seq<Call>)

  predicate InstallOnly(args: seq<string>) { |args| > 0 && args[0] == ArgInstall }

  predicate UseRoot(args: seq<string>) { InstallOnly(args) && |args| > 1 && args[1] == ArgInstallRoot }

  /** The command line `run` hands to the guest: a space before each argument. */
  function CommandLine(args: seq<string>): string {
    if args == [] then "" else CommandLine(args[..|args| - 1]) + " " + args[|args| - 1]
  }

  /** The command for two runs of arguments is the two commands one after the other. */
  lemma {:induction false} CommandLineAppend(a: seq<string>, b: seq<string>)
    ensures CommandLine(a + b) == CommandLine(a) + CommandLine(b)
    decreases |b|
  {
    if b == [] {
      assert a + b == a;
    } else {
      var init := b[..|b| - 1];
      assert (a + b)[..|a + b| - 1] == a + init;
      CommandLineAppend(a, init);
    }
  }

  /** Each argument contributes itself and one space: nothing is quoted, dropped or merged. */
  lemma {:induction false} CommandLineLength(args: seq<string>)
    ensures |CommandLine(args)| == |args| + TotalLength(args)
    decreases |args|
  {
    if args != [] {
      CommandLineLength(args[..|args| - 1]);
      TotalLengthLast(args);
    }
  }

  function TotalLength(args: seq<string>): nat {
    if args == [] then 0 else |args[0]| + TotalLength(args[1..])
  }

  lemma {:induction false} TotalLengthLast(args: seq<string>)
    requires args != []
    ensures TotalLength(args) == TotalLength(args[..|args| - 1]) + |args[|args| - 1]|
    decreases |args|
  {
    if |args| > 1 {
      TotalLengthLast(args[1..]);
      assert args[1..][..|args[1..]| - 1] == args[..|args| - 1][1..];
    }
  }

  /** wmain's loop building the command: appends " " and each argument in turn. */
  method BuildCommand(args: seq<string>) returns (command: string)
    ensures command == CommandLine(args)
  {
    command := "";
    for i := 0 to |args|
      invariant command == CommandLine(args[..i])
    {
      assert args[..i + 1][..i] == args[..i];
      command := command + " ";
      command := command + args[i];
      assert command == CommandLine(args[..i]) + " " + args[i];
    }
    assert args[..|args|] == args;
  }

  /** The exit code for a final HRESULT: the tracked exit code on success, 1 on failure. */
  function Finish(hr: Hresult, exitCode: Dword, trace: seq<Call>): (r: Exit)
    ensures r.hr == Some(hr)
    ensures Failed(hr) ==> r.code == 1
  {
    Exit(if Succeeded(hr) then exitCode else 1, Some(hr), trace)
  }

  /** What the command dispatch ends with: an HRESULT, the tracked exit code, and the calls it made. */
  datatype Dispatched = Dispatched(hr: Hresult, exitCode: Dword, calls: seq<Call>)

  /**
   * The command dispatch, reached only when no install failed and the first
   * argument is not `install`. An unknown first argument prints the usage and
   * leaves the HRESULT `hr` and the exit code as they were.
   */
  function Dispatch(args: seq<string>, host: Host, hr: Hresult, exitCode: Dword): (d: Dispatched)
    ensures forall c :: c in d.calls ==> c.LaunchInteractive? || c.QueryUid? || c.ConfigureDistribution?
  {
    if args == [] then
      Dispatched(host.session.hr, host.session.exitCode.GetOr(exitCode), [LaunchInteractive("", false)])
    else if args[0] == ArgRun || args[0] == ArgRunC then
      Dispatched(host.session.hr, host.session.exitCode.GetOr(exitCode), [LaunchInteractive(CommandLine(args[1..]), true)])
    else if args[0] == ArgConfig then
      if |args| == 3 && args[1] == ArgConfigDefaultUser then
        var s := SetDefaultUser(args[2], host.configUid, host.configureHr);
        Dispatched(s.hr, if Succeeded(s.hr) then 0 else exitCode, s.trace)
      else Dispatched(E_INVALIDARG, exitCode, [])
    else Dispatched(hr, exitCode, [])
  }

  /** The install, when the distribution is not registered yet. */
  function InstallPhase(args: seq<string>, host: Host): Step {
    if host.distributionRegistered then Step(S_OK, []) else InstallDistribution(!UseRoot(args), host.install)
  }

  /** The exit code tracked after the install phase: 1 unless an install just succeeded. */
  function ExitCodeAfterInstall(host: Host, installed: Step): Dword {
    if !host.distributionRegistered && Succeeded(installed.hr) then 0 else 1
  }

  const Probes: seq<Call> := [IsOptionalComponentInstalled, IsDistributionRegistered]

  function EntryPoint(args: seq<string>, host: Host): (r: Exit)
    ensures r.hr.Some? && Failed(r.hr.value) ==> r.code == 1
    ensures |r.trace| >= 1 && r.trace[0] == IsOptionalComponentInstalled
  {
    if !host.componentInstalled then Exit(1, None, [IsOptionalComponentInstalled])
    else
      var installed := InstallPhase(args, host);
      var exitCode := ExitCodeAfterInstall(host, installed);
      if Failed(installed.hr) || InstallOnly(args) then Finish(installed.hr, exitCode, Probes + installed.trace)
      else
        var d := Dispatch(args, host, installed.hr, exitCode);
        Finish(d.hr, d.exitCode, Probes + installed.trace + d.calls)
  }

  /** Without the WSL optional component the launcher exits with 1 and makes no other WSL call. */
  lemma MissingComponentExitsOne(args: seq<string>, host: Host)
    requires !host.componentInstalled
    ensures EntryPoint(args, host) == Exit(1, None, [IsOptionalComponentInstalled])
  {
  }

  /**
   * An install is attempted exactly when the distribution is not registered;
   * CreateUserUnlessInstallRoot says when that install creates a user.
   */
  lemma InstallOnlyWhenUnregistered(args: seq<string>, host: Host)
    requires host.componentInstalled
    ensures var t := EntryPoint(args, host).trace;
            && t[..2 + |InstallPhase(args, host).trace|]
               == Probes + InstallPhase(args, host).trace
            && (RegisterDistribution in t <==> !host.distributionRegistered)
  {
    var pre := Probes + InstallPhase(args, host).trace;
    if !host.distributionRegistered {
      assert EntryPoint(args, host).trace[2] == pre[2] == RegisterDistribution;
    } else if !InstallOnly(args) {
      assert EntryPoint(args, host).trace == pre + Dispatch(args, host, S_OK, 1).calls;
    }
  }

  /**
   * When an install runs and gets past registration and resolv.conf, a user
   * is created exactly unless the first two arguments are `install --root`.
   */
  lemma CreateUserUnlessInstallRoot(args: seq<string>, host: Host)
    requires host.componentInstalled && !host.distributionRegistered
    requires Succeeded(host.install.registerHr) && Succeeded(host.install.resolvConf.hr)
    ensures (exists c :: c in EntryPoint(args, host).trace && c.CreateUser?)
            <==> !(|args| >= 2 && args[0] == "install" && args[1] == "--root")
  {
    var t := EntryPoint(args, host).trace;
    if UseRoot(args) {
      assert t == Probes + InstallPhase(args, host).trace;
      forall c | c in t ensures !c.CreateUser? {
        if c in InstallPhase(args, host).trace {
          assert !IsUserCall(c);
        }
      }
    } else {
      var p := PromptCalls(host.install.rejectedNames, host.install.acceptedName);
      assert t[4] == p[0] && p[0].CreateUser?;
    }
  }

  /** A failed install skips the command dispatch and exits with 1. */
  lemma FailedInstallSkipsDispatch(args: seq<string>, host: Host)
    requires host.componentInstalled && !host.distributionRegistered
    requires Failed(InstallDistribution(!UseRoot(args), host.install).hr)
    ensures EntryPoint(args, host).code == 1
    ensures EntryPoint(args, host).trace
            == Probes + InstallPhase(args, host).trace
  {
  }

  /** An install that fails because the distribution already exists still exits with 1. */
  lemma AlreadyExistsExitsOne(args: seq<string>, host: Host)
    requires host.componentInstalled && !host.distributionRegistered
    requires InstallDistribution(!UseRoot(args), host.install).hr == HresultFromWin32(ERROR_ALREADY_EXISTS)
    ensures EntryPoint(args, host).code == 1
  {
  }

  /** `install` on an already registered distribution exits with 1, the exit code's initial value. */
  lemma InstallWhenRegisteredExitsOne(args: seq<string>, host: Host)
    requires host.componentInstalled && host.distributionRegistered && InstallOnly(args)
    ensures EntryPoint(args, host) == Exit(1, Some(S_OK), [IsOptionalComponentInstalled, IsDistributionRegistered])
  {
  }

  /** A successful `install` exits with 0. */
  lemma InstallSuccessExitsZero(args: seq<string>, host: Host)
    requires host.componentInstalled && !host.distributionRegistered && InstallOnly(args)
    requires Succeeded(InstallDistribution(!UseRoot(args), host.install).hr)
    ensures EntryPoint(args, host).code == 0
  {
  }

  /** Whether the command dispatch is reached. */
  predicate Dispatches(args: seq<string>, host: Host) {
    && host.componentInstalled
    && !InstallOnly(args)
    && (host.distributionRegistered || Succeeded(InstallDistribution(!UseRoot(args), host.install).hr))
  }

  /**
   * `run` and `-c` launch the remaining arguments, each after a space, in the
   * current directory; the guest's exit code becomes the process's, or 1 if
   * the launch failed.
   */
  lemma RunPropagatesGuestExitCode(args: seq<string>, host: Host)
    requires Dispatches(args, host) && args != [] && (args[0] == "run" || args[0] == "-c")
    ensures var r := EntryPoint(args, host);
            && r.trace[|r.trace| - 1] == LaunchInteractive(CommandLine(args[1..]), true)
            && (Failed(host.session.hr) ==> r.code == 1)
            && (Succeeded(host.session.hr) && host.session.exitCode.Some? ==> r.code == host.session.exitCode.value)
  {
  }

  /** With no arguments the default shell is launched and its exit code returned. */
  lemma NoArgumentsLaunchesShell(host: Host)
    requires Dispatches([], host)
    ensures var r := EntryPoint([], host);
            && r.trace[|r.trace| - 1] == LaunchInteractive("", false)
            && (Failed(host.session.hr) ==> r.code == 1)
            && (Succeeded(host.session.hr) && host.session.exitCode.Some? ==> r.code == host.session.exitCode.value)
  {
  }

  /** `config` with anything but exactly `--default-user <name>` fails with E_INVALIDARG and touches no user. */
  lemma ConfigNeedsExactArguments(args: seq<string>, host: Host)
    requires Dispatches(args, host) && args != [] && args[0] == "config"
    requires !(|args| == 3 && args[1] == "--default-user")
    ensures var r := EntryPoint(args, host);
            && r.hr == Some(E_INVALIDARG) && r.code == 1
            && r.trace == Probes + InstallPhase(args, host).trace
  {
  }

  /**
   * `config --default-user <name>` looks the name up, configures a valid UID
   * as the default, and exits with 0 exactly when that succeeds.
   */
  lemma ConfigDefaultUser(args: seq<string>, host: Host)
    requires Dispatches(args, host) && |args| == 3 && args[0] == "config" && args[1] == "--default-user"
    ensures var s := SetDefaultUser(args[2], host.configUid, host.configureHr);
            var r := EntryPoint(args, host);
            && r.hr == Some(s.hr)
            && (r.code == 0 <==> Succeeded(s.hr))
            && (Failed(s.hr) ==> r.code == 1)
            && r.trace == Probes + InstallPhase(args, host).trace + s.trace
            && s.trace[0] == QueryUid(args[2])
            && (host.configUid != UID_INVALID ==>
                  s.trace == [QueryUid(args[2]), ConfigureDistribution(host.configUid, WSL_DISTRIBUTION_FLAGS_DEFAULT)])
  {
  }

  /** An unknown first argument returns the tracked exit code as it stands. */
  lemma UnknownArgumentKeepsExitCode(args: seq<string>, host: Host)
    requires Dispatches(args, host) && args != []
    requires args[0] !in {"run", "-c", "config", "install"}
    ensures EntryPoint(args, host).code == if host.distributionRegistered then 1 else 0
    ensures EntryPoint(args, host).trace
            == Probes + InstallPhase(args, host).trace
  {
  }
}

=== FILE: settings.dfy ===
/**
 * An abstract view of Windows Terminal's settings.json. The only part the
 * launcher inspects or changes is the array `profiles.list`; everything else
 * in the document is carried along untouched in `rest`.
 */
module Settings {

  /** A JSON value. Values the launcher never inspects (a floating-point literal, say) are `Opaque`. */
  datatype Value =
    | Text(text: string)
    | Integer(number: int)
    | Flag(flag: bool)
    | Opaque(literal: string)
    | Array(items: seq<Value>)
    | Object(fields: map<string, Value>)

  /**
   * A parsed settings document: the entries of `profiles.list`, and every
   * other field of the document keyed by its path.
   */
  datatype Document = Document(list: seq<Value>, rest: map<string, Value>)

  /** What reading the settings file yields. */
  datatype SettingsFile =
    | Missing             // no file at the path
    | Unreadable          // the file exists but cannot be opened
    | Malformed           // the file opens but does not parse as JSON
    | Parsed(doc: Document)

  /** True when `v` is an object whose field `key` is the string `s`. */
  predicate HasText(v: Value, key: string, s: string) {
    v.Object? && key in v.fields && v.fields[key] == Text(s)
  }

  /** `u` and `v` are the same value, or objects that differ at most in field `key`. */
  predicate AgreeOutside(u: Value, v: Value, key: string) {
    u == v || (u.Object? && v.Object? && u.fields - {key} == v.fields - {key})
  }

  /** Two profile lists that agree entry by entry except, possibly, in field `key`. */
  predicate ListsAgreeOutside(a: seq<Value>, b: seq<Value>, key: string) {
    |a| == |b| && forall i :: 0 <= i < |a| ==> AgreeOutside(a[i], b[i], key)
  }

  /** Appending an entry to `profiles.list`, leaving the rest of the document alone. */
  function AppendProfile(doc: Document, p: Value): (r: Document)
    ensures r.rest == doc.rest
    ensures |r.list| == |doc.list| + 1
    ensures r.list[..|doc.list|] == doc.list && r.list[|doc.list|] == p
  {
    doc.(list := doc.list + [p])
  }
}

=== FILE: terminal_profile.dfy ===
/**
 * AddTerminalProfile: adds the Zenora profile to Windows Terminal's
 * settings.json unless a profile with its GUID is already listed. The
 * duplicate test looks at the `guid` field only.
 */
module TerminalProfile {
  import opened Settings
  import opened Calls

  const TargetGuid: string := "{a79cd884-4081-569f-9e90-570201e5b7c4}"

  /** The profile appended when the GUID is not yet listed. */
  const NewProfile: Value := Object(map[
    "guid" := Text(TargetGuid),
    "name" := Text("Zenora"),
    "source" := Text("Windows.Terminal.Wsl"),
    "font" := Object(map["face" := Text("0xProto Nerd Font Mono"), "size" := Integer(11)]),
    "hidden" := Flag(false)
  ])

  const SettingsSuffix: string :=
    "\\AppData\\Local\\Packages\\Microsoft.WindowsTerminal_8wekyb3d8bbwe\\LocalState\\settings.json"

  function SettingsPath(userProfile: string): string { userProfile + SettingsSuffix }

  /** An entry with a `guid` field holding the target GUID as a string. */
  predicate IsTarget(p: Value) { HasText(p, "guid", TargetGuid) }

  predicate ContainsTarget(list: seq<Value>) {
    exists i :: 0 <= i < |list| && IsTarget(list[i])
  }

  /** The number of entries carrying the target GUID. */
  function CountTargets(list: seq<Value>): nat {
    if list == [] then 0 else (if IsTarget(list[0]) then 1 else 0) + CountTargets(list[1..])
  }

  /** The scan over `profiles.list`, stopping at the first entry with the target GUID. */
  method FindTargetProfile(list: seq<Value>) returns (profileExists: bool)
    ensures profileExists <==> ContainsTarget(list)
  {
    profileExists := false;
    var i := 0;
    while i < |list|
      invariant 0 <= i <= |list|
      invariant forall j :: 0 <= j < i ==> !IsTarget(list[j])
    {
      if IsTarget(list[i]) {
        profileExists := true;
        break;
      }
      i := i + 1;
    }
  }

  /** The merge: the document unchanged when the GUID is listed, else with NewProfile appended. */
  function MergeByGuid(doc: Document): (r: Document)
    ensures r.rest == doc.rest
    ensures ContainsTarget(r.list)
    ensures doc.list <= r.list && |r.list| <= |doc.list| + 1
  {
    if ContainsTarget(doc.list) then doc
    else
      var r := AppendProfile(doc, NewProfile);
      assert IsTarget(r.list[|doc.list|]);
      r
  }

  /** No entry has the target GUID exactly when none is counted. */
  lemma {:induction false} CountZeroIffAbsent(list: seq<Value>)
    ensures CountTargets(list) == 0 <==> !ContainsTarget(list)
    decreases |list|
  {
    if list != [] {
      CountZeroIffAbsent(list[1..]);
      if ContainsTarget(list) && !IsTarget(list[0]) {
        var i :| 0 <= i < |list| && IsTarget(list[i]);
        assert IsTarget(list[1..][i - 1]);
      }
      if ContainsTarget(list[1..]) {
        var i :| 0 <= i < |list[1..]| && IsTarget(list[1..][i]);
        assert IsTarget(list[i + 1]);
      }
    }
  }

  /** Counting over a concatenation. */
  lemma {:induction false} CountAppend(a: seq<Value>, b: seq<Value>)
    ensures CountTargets(a + b) == CountTargets(a) + CountTargets(b)
    decreases |a|
  {
    if a == [] {
      assert a + b == b;
    } else {
      assert (a + b)[1..] == a[1..] + b;
      CountAppend(a[1..], b);
    }
  }

  /**
   * Without the GUID, exactly one entry with it is appended at the end and
   * every earlier entry stays where it was; with it, nothing changes.
   */
  lemma MergeAddsExactlyOne(doc: Document)
    ensures ContainsTarget(doc.list) ==> MergeByGuid(doc) == doc
    ensures !ContainsTarget(doc.list) ==>
              && MergeByGuid(doc).list == doc.list + [NewProfile]
              && CountTargets(MergeByGuid(doc).list) == 1
  {
    if !ContainsTarget(doc.list) {
      CountZeroIffAbsent(doc.list);
      CountAppend(doc.list, [NewProfile]);
      assert CountTargets([NewProfile]) == 1 by {
        assert [NewProfile][1..] == [];
      }
    }
  }

  /** The merge never adds a second entry with the target GUID. */
  lemma MergeNeverDuplicates(doc: Document)
    ensures CountTargets(MergeByGuid(doc).list) == if CountTargets(doc.list) == 0 then 1 else CountTargets(doc.list)
  {
    CountZeroIffAbsent(doc.list);
    MergeAddsExactlyOne(doc);
  }

  /** Merging twice is merging once. */
  lemma MergeIdempotent(doc: Document)
    ensures MergeByGuid(MergeByGuid(doc)) == MergeByGuid(doc)
  {
  }

  /** Profile names play no part: lists that differ only in `name` fields are merged alike. */
  lemma MergeIgnoresNames(a: Document, b: Document)
    requires ListsAgreeOutside(a.list, b.list, "name")
    ensures ContainsTarget(a.list) <==> ContainsTarget(b.list)
    ensures MergeByGuid(a) == a <==> MergeByGuid(b) == b
  {
    forall i | 0 <= i < |a.list|
      ensures IsTarget(a.list[i]) <==> IsTarget(b.list[i])
    {
      var u, v := a.list[i], b.list[i];
      if u != v {
        assert "guid" in u.fields <==> "guid" in u.fields - {"name"};
        assert "guid" in v.fields <==> "guid" in v.fields - {"name"};
        if "guid" in u.fields {
          assert u.fields["guid"] == (u.fields - {"name"})["guid"];
        }
        if "guid" in v.fields {
          assert v.fields["guid"] == (v.fields - {"name"})["guid"];
        }
      }
    }
    if ContainsTarget(a.list) {
      var i :| 0 <= i < |a.list| && IsTarget(a.list[i]);
      assert IsTarget(b.list[i]);
    }
    if ContainsTarget(b.list) {
      var i :| 0 <= i < |b.list| && IsTarget(b.list[i]);
      assert IsTarget(a.list[i]);
    }
    MergeAddsExactlyOne(a);
    MergeAddsExactlyOne(b);
  }

  /**
   * What the host answers: the USERPROFILE variable, what reading the settings
   * file gives, and whether the file then opens for writing.
   */
  datatype TerminalEnv = TerminalEnv(userProfile: string, settings: SettingsFile, outputOpens: bool)

  /**
   * The whole operation, as the calls it makes. The file is written only when
   * it was read and parsed, the GUID was absent and the output opened; a
   * missing, unreadable or malformed file leaves everything as it was, with no
   * file created.
   */
  function AddTerminalProfile(env: TerminalEnv): (trace: seq<Call>)
    ensures |trace| <= 1
    ensures trace != [] <==>
              && env.userProfile != []
              && env.settings.Parsed?
              && !ContainsTarget(env.settings.doc.list)
              && env.outputOpens
    ensures trace != [] ==> trace[0] == WriteSettings(SettingsPath(env.userProfile), MergeByGuid(env.settings.doc))
    ensures forall c :: c in trace ==> c.WriteSettings?
  {
    if env.userProfile == [] then []
    else match env.settings
      case Parsed(doc) =>
        if ContainsTarget(doc.list) || !env.outputOpens then []
        else [WriteSettings(SettingsPath(env.userProfile), MergeByGuid(doc))]
      case _ => []
  }

  /** Running the operation again on the document it wrote writes nothing. */
  lemma SecondRunWritesNothing(env: TerminalEnv)
    requires env.settings.Parsed?
    ensures AddTerminalProfile(env.(settings := Parsed(MergeByGuid(env.settings.doc)))) == []
  {
  }
}

=== FILE: win32.dfy ===
/**
 * The Windows integer types and status codes the launcher works with.
 * DWORD, ULONG and UINT are 32-bit unsigned; an HRESULT is a signed 32-bit
 * value whose sign bit is the failure bit, so FAILED(hr) is `hr < 0`.
 */
module Win32 {

  /** A 32-bit unsigned value (DWORD, ULONG, UINT). */
  type Dword = x: int | 0 <= x < 0x1_0000_0000

  /** A signed 32-bit status code. */
  type Hresult = x: int | -0x8000_0000 <= x < 0x8000_0000

  /** FAILED(hr) */
  predicate Failed(hr: Hresult) { hr < 0 }

  /** SUCCEEDED(hr) */
  predicate Succeeded(hr: Hresult) { 0 <= hr }

  /** Reinterprets the 32 bits of an unsigned value as an HRESULT. */
  function ToSigned(d: Dword): Hresult {
    if d < 0x8000_0000 then d else d - 0x1_0000_0000
  }

  /** Reinterprets the 32 bits of an HRESULT as an unsigned value. */
  function ToUnsigned(hr: Hresult): Dword {
    if hr < 0 then hr + 0x1_0000_0000 else hr
  }

  /** HRESULT_CODE: the low 16 bits. */
  function HresultCode(hr: Hresult): nat {
    ToUnsigned(hr) % 0x1_0000
  }

  /** HRESULT_FACILITY: bits 16 to 28. */
  function HresultFacility(hr: Hresult): nat {
    ToUnsigned(hr) / 0x1_0000 % 0x2000
  }

  const S_OK: Hresult := 0
  const FACILITY_WIN32: nat := 7
  const ERROR_INVALID_PARAMETER: Dword := 87
  const ERROR_ALREADY_EXISTS: Dword := 183
  const E_INVALIDARG: Hresult := ToSigned(0x8007_0057)

  /** ULONG -1: what a failed user-name lookup returns instead of a UID. */
  const UID_INVALID: Dword := 0xFFFF_FFFF

  /** Interop, Windows PATH and drive mounting all enabled. */
  const WSL_DISTRIBUTION_FLAGS_DEFAULT: Dword := 7

  /**
   * HRESULT_FROM_WIN32: a non-positive value passes through unchanged;
   * any other error code becomes a failure in the Win32 facility that keeps
   * the code's low 16 bits, with the customer and reserved bits 29-30 clear.
   */
  function HresultFromWin32(x: Dword): (hr: Hresult)
    ensures ToSigned(x) <= 0 ==> hr == ToSigned(x)
    ensures 0 < ToSigned(x) ==>
              && Failed(hr)
              && HresultFacility(hr) == FACILITY_WIN32
              && HresultCode(hr) == x % 0x1_0000
              && ToUnsigned(hr) / 0x2000_0000 == 4
  {
    if ToSigned(x) <= 0 then ToSigned(x)
    else ToSigned(0x8000_0000 + FACILITY_WIN32 * 0x1_0000 + x % 0x1_0000)
  }

  /** The two error values the launcher distinguishes are both failures, and distinct. */
  lemma DistinguishedErrors()
    ensures E_INVALIDARG == HresultFromWin32(ERROR_INVALID_PARAMETER)
    ensures Failed(E_INVALIDARG)
    ensures Failed(HresultFromWin32(ERROR_ALREADY_EXISTS))
    ensures E_INVALIDARG != HresultFromWin32(ERROR_ALREADY_EXISTS)
  {
  }
}

=== FILE: wrappers.dfy ===
/** Optional values, used for answers an external call may or may not give. */
module Wrappers {

  datatype Option<+T> = None | Some(value: T) {

    /** The carried value, or `default` when there is none. */
    function GetOr(default: T): T {
      match this
      case Some(v) => v
      case None => default
    }
  }
}
